=== FILE: README.md ===
# Chirpy record store, modelled in Dafny

Chirpy is a small posting service written in Go. Its `database` package keeps one
JSON document with three integer-keyed maps: chirps (short posts), users, and
refresh tokens keyed by user id. Every public operation loads the document,
changes one or more maps and writes the whole document back. `main.go` adds a
profanity filter (`cleanMessage`), a 140-byte limit on chirp bodies and the
`Bearer ` strip of the `Authorization` header.

The model:

- `database.dfy`, module `Database`: the document as a class `DB` with three map
  fields, one method per operation of `database/database.go`, and the invariants
  the code relies on. Ids are dense (`1..n`) and equal to their keys, and emails
  are unique. The module also holds pure specifications of the refresh-token
  rules (`ValidRefreshToken`, `IssueRefreshToken`) and lemmas about them.
- `session.dfy`, module `Session`: the claims a session token (a JWT) carries and
  the lifetime rule of `getSignedToken`. It includes the code's 64-bit overflow
  (see Findings).
- `chirpy.dfy`, module `Chirpy`: `strings.Split`/`strings.Join` on one space,
  `cleanMessage`, the length rule of `validateChirp` and the `Bearer ` strip.
- `strconv.dfy`, `bcrypt.dfy`, `maps.dfy`, `wrappers.dfy`: the library
  behaviour the core depends on. This covers `strconv.Atoi`/`Itoa`, an ideal
  password hash, the multiset of a map's values (what a `for … range` visits) and
  `Option`/`Result`.
- `scenarios.dfy`, module `Scenarios`: clients that use only the operations'
  contracts. One registers, logs in, renews, revokes and renews again. One
  registers the same email twice. One changes a password. One stores a first
  chirp.

Go's map iteration order is unspecified. So where the code returns the first
match of a `for … range` over a map, the model picks the next key with `:|`.
Each contract holds for every order. Time (`now`, whole seconds), the random
refresh token (`newToken`) and the bcrypt salt (`salt`) are parameters.

Three behaviours of the code a reader might not expect:

- New ids are `len(map)+1`, not one more than the largest id.
- A chirp body is rejected when it has 140 bytes or more, so 140 itself is refused.
- `UpdateUser` does not fail for a missing user. It is modelled as written, and
  the checked variant is a separate method (see Findings).

## Model

| member | source | states |
|---|---|---|
| `Database.DB.constructor` | database/database.go:282-288 | a new store holds the empty document (three empty maps), which satisfies every invariant |
| `Database.DB.CreateChirp` | database/database.go:63-79 | an author id that does not parse fails with the document unchanged; otherwise chirp `{n+1, body, author}` with `n = len(chirps)` is stored under `n+1` and returned, users and tokens unchanged; with dense keys nothing is overwritten and the invariants are kept |
| `Database.DB.GetChirps` | database/database.go:81-91 | the result holds every stored chirp once: its multiset is the multiset of the map's values, so it has one element per key and contains each chirp |
| `Database.DB.GetChirp` | database/database.go:93-102 | succeeds exactly when the id is a key and then returns that chirp, whose id is the key under the invariant; otherwise "not found" |
| `Database.DB.DoesEmailExist` | database/database.go:269-280 | finds a user iff some user has the email; the user found has that email and is stored; with unique emails it is the one such user |
| `Database.DB.CreateUser` | database/database.go:104-131 | an email already in use (exact comparison) fails with nothing changed; otherwise exactly one user `{n+1, email, hash}` is added under `n+1 = len(users)+1` and its id and email are returned; the invariants (dense ids, unique emails) are kept |
| `Database.DB.VerifyUser` | database/database.go:133-159 | unknown email fails "does not exist"; a known email fails only with a password mismatch, and then some user with that email has a hash the password does not match; success returns a matching user's id and email, the session claims for that user and the refresh token `getValidOrNewRefreshToken` gives; with unique emails login succeeds iff the password matches that user's hash; chirps and users never change, tokens only on success |
| `Database.DB.GetNewTokenFromRefreshToken` | database/database.go:182-193 | succeeds iff some entry holds the token and expires after `now`, returning one-hour session claims for that entry's user; never changes the document |
| `Database.DB.RemoveRefreshToken` | database/database.go:195-208 | with no entry holding the token the document is unchanged; otherwise exactly one entry holding it is deleted and all others are kept; it never fails |
| `Database.DB.GetValidOrNewRefreshToken` | database/database.go:210-219 | the returned token and the new token map are those of `IssueRefreshToken` on the old map; chirps and users unchanged |
| `Database.DB.CreateNewRefreshToken` | database/database.go:233-249 | the user's entry is replaced (not appended) by the new token expiring 60 days after `now`; every other entry is kept |
| `Database.DB.UpdateUser` | database/database.go:251-267 | an id that does not parse fails with nothing changed; otherwise `users[id]` is overwritten with the new email and password hash whether or not it existed, and id and email are returned |
| `Database.DB.UpdateUserChecked` | database/database.go:251-267 | the corrected update: fails for an id that does not parse, a missing user or an email held by another user, and otherwise succeeds and overwrites that user; keeps dense ids and unique emails |
| `Database.ValidRefreshToken` | database/database.go:221-231 | gives the user's stored token exactly when there is one and `exp > now` |
| `Database.IssueRefreshToken` | database/database.go:210-248 | the returned token is stored under the user, is valid at `now`, and every other entry is kept; a valid stored token is returned with no write; otherwise the new token expires 60 days after `now` |
| `Database.IssueRefreshTokenStable` | database/database.go:210-230 | asking again at any time before the issued token expires returns the same token and leaves the map as it is |
| `Database.RemoveLeavesNoMatch` | database/database.go:200-205 | when tokens are distinct, after deleting the entry holding a token no entry holds it, so a second removal changes nothing |
| `Database.AppendNextKey` | database/database.go:72-73 | with keys exactly `1..n`, key `n+1` is free and storing under it gives keys exactly `1..n+1` |
| `Database.InsertKeepsEmailsUnique` | database/database.go:109-125 | inserting a user under a new key with an email nobody has keeps emails unique |
| `Database.ReplaceKeepsEmailsUnique` | database/database.go:264 | overwriting a user with an email no other user has keeps emails unique |
| `Database.UpdateUserCanDuplicateEmail` | database/database.go:264 | the update as written turns a store with unique emails into one where two users share an email |
| `Session.SessionTtl` | database/database.go:162-165 | lifetime in seconds: the request when it is non-zero and below 3600, otherwise 3600; so 0 gives 3600 and it never exceeds 3600 |
| `Session.SignedClaims` | database/database.go:166-174 | issuer "chirpy", issued now, expiring at `now + SessionTtl(e)`, so at most one hour later unless a negative lifetime was requested; subject the decimal user id that parses back to that id |
| `Session.Wrap64` | database/database.go:164 | Go's 64-bit wrap-around: the result is an int64 congruent to the input and equals it when it already fits |
| `Session.SessionTtlNanosAsWritten` | database/database.go:162-165 | the duration the code computes in nanoseconds, with the wrapping 64-bit product; always an int64 |
| `Session.AsWrittenAgreesWithoutOverflow` | database/database.go:162-171 | where the product does not overflow, the code's expiry offset `ExpiryOffsetAsWritten` (the duration truncated to whole seconds, as `jwt.NewNumericDate` does at line 171) equals `SessionTtl` |
| `Session.NegativeRequestOutlivesDefault` | database/database.go:163-171 | for a request of -9223372037 seconds, `ExpiryOffsetAsWritten` gives a token expiring 9223372036 s (about 292 years) after issue |
| `Strconv.Atoi` | database/database.go:68-71 | parses only an optional sign followed by at least one decimal digit and nothing else, and a value that fits in 64 bits; the value is the decimal value of the digits, negated after a '-' |
| `Strconv.Itoa` | database/database.go:172 | writes a '-' exactly for negative numbers |
| `Strconv.AtoiItoa` | database/database.go:252-255 | the id `UpdateUser` parses from a subject written by `getSignedToken` is the original id, for every 64-bit id |
| `Bcrypt.MatchesExactly` | database/database.go:141-143 | `Matches` (the comparison of line 141) succeeds for a hash made by `Hash` (the hashing of lines 117 and 260) exactly when the password is the one that was hashed, whatever the salt |
| `Chirpy.Split` | main.go:185 | splitting always yields at least one field |
| `Chirpy.JoinSplit` | main.go:185-194 | `Join` (`strings.Join` with one space, line 194) of the fields gives back the message |
| `Chirpy.SplitJoin` | main.go:185-194 | splitting the `Join` of a non-empty list of space-free words gives back the words |
| `Chirpy.CleanMessage` | main.go:182-196 | the loop builds the censored fields one by one (after `i` steps they are `CensorAll` of the first `i` fields, lines 187-193) and returns their join, `Cleaned(msg)` |
| `Chirpy.CleanedFields` | main.go:183-195 | `Cleaned`, the `Join` of `CensorAll` (each field censored in place, lines 187-193) over the fields, has as many fields as the message; a field whose lower case is kerfuffle, sharbert or fornax becomes `****`, every other is kept byte for byte |
| `Chirpy.CleanedWithoutBlockedWords` | main.go:185-194 | a message with no blocked field comes back unchanged |
| `Chirpy.CleanedIdempotent` | main.go:183-195 | cleaning a cleaned message changes nothing |
| `Chirpy.BlockedIsWholeWord` | main.go:183-188 | `IsBlocked` (the lookup of the lower-cased field in the bad-word set, line 188) holds for "Sharbert" and "KERFUFFLE" but not for "Sharbert!" and "fornax." |
| `Chirpy.ReplacementIsClean` | main.go:183-184 | `****` has no space and is not blocked |
| `Chirpy.Lower` | main.go:188 | lower-casing keeps the length, turns each ASCII capital into its lower-case letter, leaves no ASCII capital, and keeps every character that is not an ASCII capital |
| `Chirpy.ChirpTooLong` | main.go:169-173 | a body passes exactly when it has at most 139 bytes |
| `Chirpy.TrimBearer` | main.go:95 | a header starting with "Bearer " loses exactly that prefix once; any other header is unchanged |
| `Chirpy.TrimBearerRoundTrip` | main.go:95 | a header made of "Bearer " and a token gives the token back, even a token that starts with "Bearer " itself |
| `Scenarios.LoginRenewRevoke` | database/database.go:133-208 | register, login (refresh token r1, a one-hour session), renew with r1, revoke r1, and renewal with r1 then fails |
| `Scenarios.DuplicateRegistration` | database/database.go:104-115 | registering the same email twice fails the second time, whatever the password |
| `Scenarios.PasswordChange` | database/database.go:251-267 | after an update, login refuses the old password and accepts the new one |
| `Scenarios.FirstChirp` | database/database.go:72-78 | on an empty store a 139-byte body passes the length rule and is stored with id 1; a 140-byte body fails the rule |

## Left out

- File I/O and JSON: `loadDB`, `writeDB` and the file probe in `ensureDB` (database/database.go:282-317). Loading reads the `DB` fields and writing assigns them. So the error paths of an unreadable or undecodable file, present in every operation, are not modelled. Write errors that the code ignores (database/database.go:203, 247, 265, 286) cannot occur in the model.
- Opening an existing database file: the constructor models a missing file only. Every method's contract holds from any document.
- Concurrency: the `sync.RWMutex` taken separately inside `loadDB` and `writeDB`. The model is sequential, so it cannot show the lost-update window between load and write.
- bcrypt: the cost factor, the salt encoding, and hashing errors. These include rejecting or truncating passwords over 72 bytes, which depends on the library version. The hash is ideal, and the random salt is a parameter.
- `crypto/rand` and hex encoding of refresh tokens: the new token is the parameter `newToken`. The failure of `rand.Read` (database/database.go:236-238) is not modelled.
- JWT signing and parsing (database/database.go:166-179, main.go:96-113): only the claims are modelled. Signing cannot fail with an HMAC key, and the signature check in `updateUser` is not modelled.
- Wall-clock time: each operation takes one `now` in whole seconds, where the code calls `time.Now()` at each step with nanosecond precision.
- Integer width of ids: `len(map)+1` cannot overflow for any map that fits in memory. Only the session-lifetime product is modelled with 64-bit wrap-around.
- `strings.ToLower` is modelled for ASCII only. Unicode case folding is not modelled.
- Strings: a Dafny `string` stands for a Go byte string, one `char` per byte. The 140-byte length rule and the split on one space read it that way; UTF-8 decoding is not modelled.
- The HTTP layer: handlers, JSON responses, the file server, the hit counter, `godotenv` and `main`. `validateChirp` calls `CreateChirp` with one argument, but the method takes two (main.go:174, database/database.go:63). Only its length rule is modelled. `cleanMessage` is not called by any handler.
- Session.SignedClaims: the expiry is `now + SessionTtl(e)`, the corrected lifetime, not the code's wrapped `ExpiryOffsetAsWritten(e)`; the two differ for every request below -9223372036 seconds (see Findings).
- Database.DB.VerifyUser: the session lifetime uses the corrected `SessionTtl`. For requests below -9223372036 seconds the code's lifetime differs (see Findings).

## Findings

| source | as written | input that shows it | evidently intended | confidence | as-written member | corrected member |
|---|---|---|---|---|---|---|
| database/database.go:163-164 | the requested lifetime is turned into a `time.Duration` by the 64-bit product `time.Second * time.Duration(expiresInSeconds)`, which wraps | `expires_in_seconds = -9223372037` passes the `< 3600` test, and the product wraps to about +9.22e18 ns, a session valid for about 292 years | a session token never outlives one hour | medium (arithmetic proved; not executed) | `Session.NegativeRequestOutlivesDefault` | `Session.SessionTtl` |
| database/database.go:264 | `UpdateUser` stores the new email without checking other users or that the user exists | users 1 `a@x.com` and 2 `b@x.com`; user 1 updates to `b@x.com`; two users now share an email, and login for `b@x.com` picks either user depending on map order | emails stay unique, as `CreateUser` enforces | medium (not executed) | `Database.UpdateUserCanDuplicateEmail` | `Database.DB.UpdateUserChecked` |

=== FILE: bcrypt.dfy ===
/** Password hashing as the store uses it (bcrypt.GenerateFromPassword and
    bcrypt.CompareHashAndPassword). The hash is an ideal one: the comparison
    succeeds exactly for the password it was generated from. The random salt is
    a parameter; the cost factor and the encoding are not modelled. */
module Bcrypt {

  /** A stored hash. It records the password it was made from only so that
      comparison can be stated; nothing in the store reads that field. */
  datatype PasswordHash = PasswordHash(salt: nat, preimage: string)

  function Hash(password: string, salt: nat): (h: PasswordHash) {
    PasswordHash(salt, password)
  }

  /** bcrypt.CompareHashAndPassword returns no error. */
  predicate Matches(h: PasswordHash, password: string) {
    h.preimage == password
  }

  /** Verification accepts a password iff it is the one that was hashed, whatever the salt. */
  lemma MatchesExactly(password: string, attempt: string, salt: nat)
    ensures Matches(Hash(password, salt), attempt) <==> attempt == password
  {
  }
}

=== FILE: chirpy.dfy ===
/** The string handling of main.go: the profanity filter cleanMessage, the
    chirp length limit of validateChirp and the "Bearer " strip of updateUser.
    Strings are byte strings and case folding is ASCII only. */
module Chirpy {

  const SEPARATOR: char := ' '
  const REPLACEMENT: string := "****"
  const BLOCKED_WORDS: set<string> := {"kerfuffle", "sharbert", "fornax"}
  /** maxChirpLen in validateChirp. */
  const MAX_CHIRP_LEN: int := 140
  const BEARER_PREFIX: string := "Bearer "

  // ---------------------------------------------------------------------------
  // strings.Split(s, " ") and strings.Join(words, " ")

  /** strings.Split with a one-space separator: the fields between spaces,
      empty ones included; the empty string gives one empty field. */
  function Split(s: string): (words: seq<string>)
    ensures |words| > 0
    decreases |s|
  {
    if |s| == 0 then [""]
    else if s[0] == SEPARATOR then [""] + Split(s[1..])
    else
      var rest := Split(s[1..]);
      [[s[0]] + rest[0]] + rest[1..]
  }

  /** strings.Join with a one-space separator. */
  function Join(words: seq<string>): (s: string)
  {
    if |words| == 0 then ""
    else if |words| == 1 then words[0]
    else words[0] + [SEPARATOR] + Join(words[1..])
  }

  predicate NoSeparator(w: string) {
    SEPARATOR !in w
  }

  lemma {:induction false} SplitFieldsHaveNoSeparator(s: string)
    ensures forall i :: 0 <= i < |Split(s)| ==> NoSeparator(Split(s)[i])
    decreases |s|
  {
    if |s| > 0 {
      SplitFieldsHaveNoSeparator(s[1..]);
    }
  }

  /** Joining the fields puts back exactly the spaces Split removed. */
  lemma {:induction false} JoinSplit(s: string)
    ensures Join(Split(s)) == s
    decreases |s|
  {
    if |s| > 0 {
      JoinSplit(s[1..]);
      var rest := Split(s[1..]);
      if s[0] != SEPARATOR && |rest| > 1 {
        assert Join(rest) == rest[0] + [SEPARATOR] + Join(rest[1..]);
        assert s == [s[0]] + s[1..];
      }
    }
  }

  lemma {:induction false} SplitWord(w: string)
    requires NoSeparator(w)
    ensures Split(w) == [w]
    decreases |w|
  {
    if |w| > 0 {
      SplitWord(w[1..]);
      assert [w[0]] + w[1..] == w;
    }
  }

  lemma {:induction false} SplitWordThenSeparator(w: string, t: string)
    requires NoSeparator(w)
    ensures Split(w + [SEPARATOR] + t) == [w] + Split(t)
    decreases |w|
  {
    var s := w + [SEPARATOR] + t;
    if |w| == 0 {
      assert s == [SEPARATOR] + t;
      assert s[1..] == t;
    } else {
      assert s[1..] == w[1..] + [SEPARATOR] + t;
      SplitWordThenSeparator(w[1..], t);
      assert [w[0]] + w[1..] == w;
    }
  }

  /** Splitting what was joined from space-free words gives the words back. */
  lemma {:induction false} SplitJoin(words: seq<string>)
    requires |words| > 0
    requires forall i :: 0 <= i < |words| ==> NoSeparator(words[i])
    ensures Split(Join(words)) == words
    decreases |words|
  {
    if |words| == 1 {
      SplitWord(words[0]);
    } else {
      SplitJoin(words[1..]);
      SplitWordThenSeparator(words[0], Join(words[1..]));
      assert [words[0]] + words[1..] == words;
    }
  }

  // ---------------------------------------------------------------------------
  // cleanMessage

  function LowerChar(c: char): (l: char) {
    if 'A' <= c <= 'Z' then (c as int + 32) as char else c
  }

  /** strings.ToLower restricted to ASCII. */
  function Lower(w: string): (l: string)
    ensures |l| == |w|
    ensures forall i :: 0 <= i < |l| ==> !('A' <= l[i] <= 'Z')
    ensures forall i :: 0 <= i < |w| && !('A' <= w[i] <= 'Z') ==> l[i] == w[i]
    ensures forall i :: 0 <= i < |w| && 'A' <= w[i] <= 'Z' ==> l[i] as int == w[i] as int + 32
  {
    seq(|w|, i requires 0 <= i < |w| => LowerChar(w[i]))
  }

  /** badWords[strings.ToLower(word)]. */
  predicate IsBlocked(w: string) {
    Lower(w) in BLOCKED_WORDS
  }

  /** What cleanMessage puts in place of one field. */
  function Censor(w: string): (c: string) {
    if IsBlocked(w) then REPLACEMENT else w
  }

  function CensorAll(words: seq<string>): (r: seq<string>)
    ensures |r| == |words|
    ensures forall i :: 0 <= i < |words| ==> r[i] == Censor(words[i])
  {
    seq(|words|, i requires 0 <= i < |words| => Censor(words[i]))
  }

  /** The message cleanMessage returns. */
  function Cleaned(msg: string): (cleaned: string) {
    Join(CensorAll(Split(msg)))
  }

  lemma ReplacementIsClean()
    ensures NoSeparator(REPLACEMENT) && !IsBlocked(REPLACEMENT)
  {
  }

  /** The fields of the cleaned message are the fields of the message, each
      blocked one (any case) replaced by "****" and every other kept as it is. */
  lemma CleanedFields(msg: string)
    ensures |Split(Cleaned(msg))| == |Split(msg)|
    ensures forall i :: 0 <= i < |Split(msg)| ==>
              Split(Cleaned(msg))[i] == if IsBlocked(Split(msg)[i]) then REPLACEMENT else Split(msg)[i]
  {
    SplitFieldsHaveNoSeparator(msg);
    ReplacementIsClean();
    SplitJoin(CensorAll(Split(msg)));
  }

  /** A message without blocked words comes back unchanged. */
  lemma CleanedWithoutBlockedWords(msg: string)
    requires forall i :: 0 <= i < |Split(msg)| ==> !IsBlocked(Split(msg)[i])
    ensures Cleaned(msg) == msg
  {
    assert CensorAll(Split(msg)) == Split(msg);
    JoinSplit(msg);
  }

  /** Cleaning twice is cleaning once, since "****" is not a blocked word. */
  lemma CleanedIdempotent(msg: string)
    ensures Cleaned(Cleaned(msg)) == Cleaned(msg)
  {
    CleanedFields(msg);
    ReplacementIsClean();
    var words := Split(Cleaned(msg));
    assert CensorAll(words) == words;
    JoinSplit(Cleaned(msg));
  }

  /** Only the exact words, in any letter case, are blocked: a word with
      punctuation attached passes. */
  lemma BlockedIsWholeWord()
    ensures IsBlocked("Sharbert") && IsBlocked("KERFUFFLE")
    ensures !IsBlocked("Sharbert!") && !IsBlocked("fornax.")
  {
    assert Lower("Sharbert") == "sharbert";
    assert Lower("KERFUFFLE") == "kerfuffle";
    assert |Lower("Sharbert!")| == 9 && Lower("Sharbert!")[8] == '!';
    assert |Lower("fornax.")| == 7 && Lower("fornax.")[6] == '.';
  }

  /** cleanMessage: split on spaces, censor each field into a new slice, join. */
  method CleanMessage(msg: string) returns (joined: string)
    ensures joined == Cleaned(msg)
  {
    var splitMsg := Split(msg);
    var cleanedMessages: seq<string> := [];
    for i := 0 to |splitMsg|
      invariant cleanedMessages == CensorAll(splitMsg[..i])
    {
      if IsBlocked(splitMsg[i]) {
        cleanedMessages := cleanedMessages + [REPLACEMENT];
        continue;
      }
      cleanedMessages := cleanedMessages + [splitMsg[i]];
    }
    assert splitMsg[..|splitMsg|] == splitMsg;
    joined := Join(cleanedMessages);
  }

  // ---------------------------------------------------------------------------
  // validateChirp and updateUser

  /** The length check of validateChirp: a body of 140 bytes or more is rejected. */
  function ChirpTooLong(body: string): (tooLong: bool)
    ensures !tooLong <==> |body| <= MAX_CHIRP_LEN - 1
  {
    |body| >= MAX_CHIRP_LEN
  }

  /** strings.TrimPrefix(token, "Bearer "): the prefix goes once if it is there. */
  function TrimBearer(header: string): (token: string)
    ensures BEARER_PREFIX <= header ==> BEARER_PREFIX + token == header
    ensures !(BEARER_PREFIX <= header) ==> token == header
  {
    if BEARER_PREFIX <= header then header[|BEARER_PREFIX|..] else header
  }

  /** An Authorization header built from a token gives that token back, even
      one that itself starts with "Bearer ". */
  lemma TrimBearerRoundTrip(token: string)
    ensures TrimBearer(BEARER_PREFIX + token) == token
  {
  }
}

=== FILE: database.dfy ===
/** The record store of database/database.go: one document of three
    integer-keyed maps (chirps, users, refresh tokens keyed by user id). Every
    public operation loads the document, changes it and writes it back whole;
    here the document lives in the fields of a `DB` object, loading reads the
    fields into a local copy and writing assigns them. The file, its JSON
    encoding and the lock around it are not modelled. */
module Database {
  import opened Wrappers
  import opened Strconv
  import opened Bcrypt
  import Session
  import Maps

  datatype Chirp = Chirp(id: int, body: string, authorId: int)

  datatype User = User(id: int, email: string, password: PasswordHash)

  /** `exp` is the expiry instant in seconds. */
  datatype RefreshToken = RefreshToken(token: string, exp: int)

  /** What the user operations return; `token` is the session token, present only after a login. */
  datatype UserReturn = UserReturn(id: int, email: string, token: Option<Session.Claims>, refreshToken: string)

  datatype Error =
    | InvalidInteger       // strconv.Atoi failed
    | UserExists           // "User already exists"
    | UserDoesNotExist     // "User does not exist"
    | PasswordMismatch     // bcrypt.CompareHashAndPassword failed
    | InvalidRefreshToken  // "Invalid refresh token"
    | ChirpNotFound        // "Error getting chirp with id: …"

  /** time.Hour * 24 * 60, in seconds. */
  const REFRESH_TOKEN_LIFETIME: int := 24 * 60 * 60 * 60

  // ---------------------------------------------------------------------------
  // Invariants of the document

  /** The keys are exactly 1..|m|, which is what allocating `len(m)+1` relies on. */
  ghost predicate DenseKeys<V>(m: map<int, V>) {
    forall k :: k in m <==> 1 <= k <= |m|
  }

  predicate ChirpIdsMatchKeys(chirps: map<int, Chirp>) {
    forall k :: k in chirps ==> chirps[k].id == k
  }

  predicate UserIdsMatchKeys(users: map<int, User>) {
    forall k :: k in users ==> users[k].id == k
  }

  predicate EmailTaken(users: map<int, User>, email: string) {
    exists k :: k in users && users[k].email == email
  }

  /** Some user other than the one under key `id` has this email. */
  predicate EmailTakenByOther(users: map<int, User>, id: int, email: string) {
    exists k :: k in users && k != id && users[k].email == email
  }

  predicate UniqueEmails(users: map<int, User>) {
    forall j, k :: j in users && k in users && users[j].email == users[k].email ==> j == k
  }

  /** With dense keys, key `len+1` is free, and storing under it keeps the keys dense. */
  lemma AppendNextKey<V>(m: map<int, V>, v: V)
    requires DenseKeys(m)
    ensures |m| + 1 !in m
    ensures |m[|m| + 1 := v]| == |m| + 1 && DenseKeys(m[|m| + 1 := v])
  {
  }

  /** Adding a user whose email nobody has keeps emails unique. */
  lemma InsertKeepsEmailsUnique(users: map<int, User>, id: int, u: User)
    requires UniqueEmails(users) && id !in users && !EmailTaken(users, u.email)
    ensures UniqueEmails(users[id := u])
  {
  }

  /** Overwriting a user with an email no other user has keeps emails unique. */
  lemma ReplaceKeepsEmailsUnique(users: map<int, User>, id: int, u: User)
    requires UniqueEmails(users) && !EmailTakenByOther(users, id, u.email)
    ensures UniqueEmails(users[id := u])
  {
  }

  /** UpdateUser as written: two users with distinct emails, and the first
      taking the second's email, leave two users under one email. */
  lemma UpdateUserCanDuplicateEmail(h1: PasswordHash, h2: PasswordHash, h3: PasswordHash)
    ensures var before := map[1 := User(1, "a@x.com", h1), 2 := User(2, "b@x.com", h2)];
            UniqueEmails(before) && !UniqueEmails(before[1 := User(1, "b@x.com", h3)])
  {
    var after := map[1 := User(1, "a@x.com", h1), 2 := User(2, "b@x.com", h2)][1 := User(1, "b@x.com", h3)];
    assert after[1].email == after[2].email;
  }

  // ---------------------------------------------------------------------------
  // Refresh tokens

  /** Entry `id` holds token `t` and has not expired at `now`. */
  predicate IsValidToken(tokens: map<int, RefreshToken>, id: int, t: string, now: int) {
    id in tokens && tokens[id].token == t && tokens[id].exp > now
  }

  predicate HasToken(tokens: map<int, RefreshToken>, t: string) {
    exists id :: id in tokens && tokens[id].token == t
  }

  predicate DistinctTokens(tokens: map<int, RefreshToken>) {
    forall i, j :: i in tokens && j in tokens && tokens[i].token == tokens[j].token ==> i == j
  }

  /** getValidRefreshToken: the user's stored token if it has not expired at `now`. */
  function ValidRefreshToken(tokens: map<int, RefreshToken>, userId: int, now: int): (r: Option<RefreshToken>)
    ensures r.Some? <==> userId in tokens && tokens[userId].exp > now
    ensures r.Some? ==> r.value == tokens[userId] && IsValidToken(tokens, userId, r.value.token, now)
  {
    if userId in tokens && tokens[userId].exp > now then Some(tokens[userId]) else None
  }

  /** getValidOrNewRefreshToken on a document: the token it returns and the
      refresh-token map it leaves. `newToken` is the random token createNewRefreshToken would draw. */
  function IssueRefreshToken(tokens: map<int, RefreshToken>, userId: int, now: int, newToken: string)
    : (r: (RefreshToken, map<int, RefreshToken>))
    ensures r.1 == tokens[userId := r.0]
    ensures IsValidToken(r.1, userId, r.0.token, now)
    ensures ValidRefreshToken(tokens, userId, now).Some? ==> r.0 == tokens[userId] && r.1 == tokens
    ensures ValidRefreshToken(tokens, userId, now).None? ==> r.0 == RefreshToken(newToken, now + REFRESH_TOKEN_LIFETIME)
  {
    match ValidRefreshToken(tokens, userId, now)
    case Some(t) => (t, tokens)
    case None =>
      var t := RefreshToken(newToken, now + REFRESH_TOKEN_LIFETIME);
      (t, tokens[userId := t])
  }

  /** Asking again at any time before the issued token expires returns the
      same token and writes nothing, whatever random token would be drawn. */
  lemma IssueRefreshTokenStable(tokens: map<int, RefreshToken>, userId: int, now: int, newToken: string,
                                later: int, newToken': string)
    requires later < IssueRefreshToken(tokens, userId, now, newToken).0.exp
    ensures var (t, after) := IssueRefreshToken(tokens, userId, now, newToken);
            IssueRefreshToken(after, userId, later, newToken') == (t, after)
  {
  }

  /** Once the one entry holding `t` is deleted, no entry holds `t`, so removing it again changes nothing. */
  lemma RemoveLeavesNoMatch(tokens: map<int, RefreshToken>, id: int, t: string)
    requires DistinctTokens(tokens) && id in tokens && tokens[id].token == t
    ensures !HasToken(tokens - {id}, t)
  {
  }

  // ---------------------------------------------------------------------------
  // The store

  class DB {
    var chirps: map<int, Chirp>
    var users: map<int, User>
    var refreshTokens: map<int, RefreshToken>

    /** Ids are dense and equal to their keys; emails are unique. */
    ghost predicate Valid()
      reads this
    {
      && DenseKeys(chirps) && ChirpIdsMatchKeys(chirps)
      && DenseKeys(users) && UserIdsMatchKeys(users)
      && UniqueEmails(users)
    }

    /** NewDB on a missing file: ensureDB writes the empty document. */
    constructor ()
      ensures chirps == map[] && users == map[] && refreshTokens == map[]
      ensures Valid()
    {
      chirps, users, refreshTokens := map[], map[], map[];
    }

    /** CreateChirp: the new chirp gets id `len(chirps)+1`. */
    method CreateChirp(body: string, authorId: string) returns (r: Result<Chirp, Error>)
      modifies this
      ensures users == old(users) && refreshTokens == old(refreshTokens)
      ensures Atoi(authorId).None? ==> r == Err(InvalidInteger) && chirps == old(chirps)
      ensures Atoi(authorId).Some? ==>
                var id := |old(chirps)| + 1;
                r == Ok(Chirp(id, body, Atoi(authorId).value)) && chirps == old(chirps)[id := r.value]
      ensures old(DenseKeys(chirps)) ==> DenseKeys(chirps) && (r.Ok? ==> r.value.id !in old(chirps))
      ensures old(Valid()) ==> Valid()
    {
      var loaded := chirps;
      var userId := Atoi(authorId);
      if userId.None? {
        return Err(InvalidInteger);
      }
      var id := |loaded| + 1;
      if DenseKeys(loaded) {
        AppendNextKey(loaded, Chirp(id, body, userId.value));
      }
      loaded := loaded[id := Chirp(id, body, userId.value)];
      chirps := loaded;
      r := Ok(loaded[id]);
    }

    /** GetChirps: every stored chirp once, in map iteration order. */
    method GetChirps() returns (r: seq<Chirp>)
      ensures multiset(r) == Maps.Values(chirps)
      ensures |r| == |chirps|
      ensures forall k :: k in chirps ==> chirps[k] in r
    {
      var loaded := chirps;
      var unvisited := loaded;
      r := [];
      while unvisited != map[]
        invariant multiset(r) + Maps.Values(unvisited) == Maps.Values(loaded)
        decreases |unvisited|
      {
        assert unvisited.Keys != {};
        // A witness that the set is non-empty lets `:|` below pick a key.
        ghost var nonEmpty := Maps.SomeMember(unvisited.Keys);
        var k :| k in unvisited;
        Maps.VisitKey(r, unvisited, k);
        r := r + [unvisited[k]];
        unvisited := unvisited - {k};
      }
      Maps.ValuesInSeq(r, chirps);
    }

    /** GetChirp: a point lookup. */
    function GetChirp(id: int): (r: Result<Chirp, Error>)
      reads this
      ensures r.Ok? <==> id in chirps
      ensures r.Ok? ==> r.value == chirps[id]
      ensures r.Ok? && ChirpIdsMatchKeys(chirps) ==> r.value.id == id
      ensures r.Err? ==> r.error == ChirpNotFound
    {
      if id in chirps then Ok(chirps[id]) else Err(ChirpNotFound)
    }

    /** doesEmailExist: some user with this email, if there is one; with
        duplicate emails, whichever the iteration meets first. */
    method DoesEmailExist(email: string) returns (r: Option<User>)
      ensures r.None? <==> !EmailTaken(users, email)
      ensures r.Some? ==> r.value.email == email && exists k :: k in users && users[k] == r.value
      ensures r.Some? && UniqueEmails(users) ==>
                forall k :: k in users && users[k].email == email ==> users[k] == r.value
    {
      var loaded := users;
      var unvisited := loaded.Keys;
      while unvisited != {}
        invariant unvisited <= loaded.Keys
        invariant forall k :: k in loaded && k !in unvisited ==> loaded[k].email != email
        decreases unvisited
      {
        // A witness that the set is non-empty lets `:|` below pick a key.
        ghost var nonEmpty := Maps.SomeMember(unvisited);
        var k :| k in unvisited;
        if loaded[k].email == email {
          return Some(loaded[k]);
        }
        unvisited := unvisited - {k};
      }
      return None;
    }

    /** CreateUser: refuses an email already in use, otherwise stores the
        user under `len(users)+1` with the hash of the password. */
    method CreateUser(email: string, password: string, salt: nat) returns (r: Result<UserReturn, Error>)
      modifies this
      ensures chirps == old(chirps) && refreshTokens == old(refreshTokens)
      ensures EmailTaken(old(users), email) ==> r == Err(UserExists) && users == old(users)
      ensures !EmailTaken(old(users), email) ==>
                var id := |old(users)| + 1;
                && r == Ok(UserReturn(id, email, None, ""))
                && users == old(users)[id := User(id, email, Hash(password, salt))]
      ensures old(DenseKeys(users)) ==> DenseKeys(users)
      ensures old(UniqueEmails(users)) ==> UniqueEmails(users)
      ensures old(Valid()) ==> Valid()
    {
      var loaded := users;
      var existing := DoesEmailExist(email);
      if existing.Some? {
        return Err(UserExists);
      }
      var id := |loaded| + 1;
      var user := User(id, email, Hash(password, salt));
      if DenseKeys(loaded) {
        AppendNextKey(loaded, user);
      }
      if UniqueEmails(loaded) && DenseKeys(loaded) {
        InsertKeepsEmailsUnique(loaded, id, user);
      }
      loaded := loaded[id := user];
      users := loaded;
      r := Ok(UserReturn(id, email, None, ""));
    }

    /** createNewRefreshToken: replaces the user's entry by `newToken`, valid for 60 days. */
    method CreateNewRefreshToken(userId: int, now: int, newToken: string) returns (t: RefreshToken)
      modifies this
      ensures chirps == old(chirps) && users == old(users)
      ensures t == RefreshToken(newToken, now + REFRESH_TOKEN_LIFETIME)
      ensures refreshTokens == old(refreshTokens)[userId := t]
    {
      var loaded := refreshTokens;
      t := RefreshToken(newToken, now + REFRESH_TOKEN_LIFETIME);
      loaded := loaded[userId := t];
      refreshTokens := loaded;
    }

    /** getValidOrNewRefreshToken: the stored token while it is valid, a new one otherwise. */
    method GetValidOrNewRefreshToken(userId: int, now: int, newToken: string) returns (t: RefreshToken)
      modifies this
      ensures chirps == old(chirps) && users == old(users)
      ensures (t, refreshTokens) == IssueRefreshToken(old(refreshTokens), userId, now, newToken)
    {
      var valid := ValidRefreshToken(refreshTokens, userId, now);
      if valid.Some? {
        return valid.value;
      }
      t := CreateNewRefreshToken(userId, now, newToken);
    }

    /** VerifyUser (login): finds a user by email, checks the password, signs a
        session token and hands out the user's refresh token. */
    method VerifyUser(email: string, password: string, expiresInSeconds: int, now: int, newToken: string)
      returns (r: Result<UserReturn, Error>)
      modifies this
      ensures chirps == old(chirps) && users == old(users)
      ensures !EmailTaken(users, email) ==> r == Err(UserDoesNotExist)
      ensures EmailTaken(users, email) && r.Err? ==> r.error == PasswordMismatch
      ensures r.Err? && EmailTaken(users, email) ==>
                exists k :: k in users && users[k].email == email && !Matches(users[k].password, password)
      ensures r.Err? ==> refreshTokens == old(refreshTokens)
      ensures r.Ok? ==>
                exists k :: k in users && users[k].email == email && Matches(users[k].password, password) &&
                  var (t, tokens) := IssueRefreshToken(old(refreshTokens), users[k].id, now, newToken);
                  && r.value == UserReturn(users[k].id, email, Some(Session.SignedClaims(users[k].id, expiresInSeconds, now)), t.token)
                  && refreshTokens == tokens
      ensures UniqueEmails(users) ==>
                (r.Ok? <==> exists k :: k in users && users[k].email == email && Matches(users[k].password, password))
    {
      var found := DoesEmailExist(email);
      if found.None? {
        return Err(UserDoesNotExist);
      }
      var user := found.value;
      ghost var key :| key in users && users[key] == user;
      if !Matches(user.password, password) {
        assert users[key].email == email && !Matches(users[key].password, password);
        return Err(PasswordMismatch);
      }
      var claims := Session.SignedClaims(user.id, expiresInSeconds, now);
      var t := GetValidOrNewRefreshToken(user.id, now, newToken);
      r := Ok(UserReturn(user.id, user.email, Some(claims), t.token));
      assert users[key].email == email && Matches(users[key].password, password);
    }

    /** GetNewTokenFromRefreshToken: a one-hour session token for the owner of
        a stored, unexpired refresh token; the refresh token is kept. */
    method GetNewTokenFromRefreshToken(t: string, now: int) returns (r: Result<Session.Claims, Error>)
      ensures r.Ok? <==> exists id :: IsValidToken(refreshTokens, id, t, now)
      ensures r.Ok? ==> exists id :: IsValidToken(refreshTokens, id, t, now) && r.value == Session.SignedClaims(id, 0, now)
      ensures r.Err? ==> r.error == InvalidRefreshToken
    {
      var loaded := refreshTokens;
      var unvisited := loaded.Keys;
      while unvisited != {}
        invariant unvisited <= loaded.Keys
        invariant forall id :: id in loaded && id !in unvisited ==> !IsValidToken(loaded, id, t, now)
        decreases unvisited
      {
        // A witness that the set is non-empty lets `:|` below pick a key.
        ghost var nonEmpty := Maps.SomeMember(unvisited);
        var id :| id in unvisited;
        if loaded[id].token == t && loaded[id].exp > now {
          assert IsValidToken(refreshTokens, id, t, now);
          return Ok(Session.SignedClaims(id, 0, now));
        }
        unvisited := unvisited - {id};
      }
      return Err(InvalidRefreshToken);
    }

    /** RemoveRefreshToken: deletes one entry holding `t`, if any; never fails. */
    method RemoveRefreshToken(t: string)
      modifies this
      ensures chirps == old(chirps) && users == old(users)
      ensures !HasToken(old(refreshTokens), t) ==> refreshTokens == old(refreshTokens)
      ensures HasToken(old(refreshTokens), t) ==>
                exists id :: id in old(refreshTokens) && old(refreshTokens)[id].token == t &&
                  refreshTokens == old(refreshTokens) - {id}
    {
      var loaded := refreshTokens;
      var unvisited := loaded.Keys;
      while unvisited != {}
        invariant unvisited <= loaded.Keys
        invariant refreshTokens == loaded == old(refreshTokens)
        invariant chirps == old(chirps) && users == old(users)
        invariant forall id :: id in loaded && id !in unvisited ==> loaded[id].token != t
        decreases unvisited
      {
        // A witness that the set is non-empty lets `:|` below pick a key.
        ghost var nonEmpty := Maps.SomeMember(unvisited);
        var id :| id in unvisited;
        if loaded[id].token == t {
          loaded := loaded - {id};
          refreshTokens := loaded;
          return;
        }
        unvisited := unvisited - {id};
      }
    }

    /** UpdateUser as written: overwrites `users[id]` without checking that
        the user exists or that the email is free. */
    method UpdateUser(id: string, email: string, password: string, salt: nat) returns (r: Result<UserReturn, Error>)
      modifies this
      ensures chirps == old(chirps) && refreshTokens == old(refreshTokens)
      ensures Atoi(id).None? ==> r == Err(InvalidInteger) && users == old(users)
      ensures Atoi(id).Some? ==>
                var userId := Atoi(id).value;
                && r == Ok(UserReturn(userId, email, None, ""))
                && users == old(users)[userId := User(userId, email, Hash(password, salt))]
    {
      var userId := Atoi(id);
      if userId.None? {
        return Err(InvalidInteger);
      }
      var loaded := users;
      loaded := loaded[userId.value := User(userId.value, email, Hash(password, salt))];
      users := loaded;
      r := Ok(UserReturn(loaded[userId.value].id, loaded[userId.value].email, None, ""));
    }

    /** UpdateUser as the store's invariants need it: the user must exist and
        no other user may have the new email. */
    method UpdateUserChecked(id: string, email: string, password: string, salt: nat)
      returns (r: Result<UserReturn, Error>)
      modifies this
      ensures chirps == old(chirps) && refreshTokens == old(refreshTokens)
      ensures Atoi(id).None? ==> r == Err(InvalidInteger) && users == old(users)
      ensures Atoi(id).Some? && Atoi(id).value !in old(users) ==>
                r == Err(UserDoesNotExist) && users == old(users)
      ensures Atoi(id).Some? && Atoi(id).value in old(users) && EmailTakenByOther(old(users), Atoi(id).value, email) ==>
                r == Err(UserExists) && users == old(users)
      ensures r.Ok? ==>
                var userId := Atoi(id).value;
                && r.value == UserReturn(userId, email, None, "")
                && users == old(users)[userId := User(userId, email, Hash(password, salt))]
      ensures Atoi(id).Some? && Atoi(id).value in old(users) && !EmailTakenByOther(old(users), Atoi(id).value, email) ==>
                r.Ok?
      ensures old(Valid()) ==> Valid()
    {
      var userId := Atoi(id);
      if userId.None? {
        return Err(InvalidInteger);
      }
      var loaded := users;
      if userId.value !in loaded {
        return Err(UserDoesNotExist);
      }
      if EmailTakenByOther(loaded, userId.value, email) {
        return Err(UserExists);
      }
      var user := User(userId.value, email, Hash(password, salt));
      if Valid() {
        ReplaceKeepsEmailsUnique(loaded, userId.value, user);
        assert loaded[userId.value := user].Keys == loaded.Keys;
      }
      loaded := loaded[userId.value := user];
      users := loaded;
      r := Ok(UserReturn(userId.value, email, None, ""));
    }
  }
}

=== FILE: maps.dfy ===
/** Facts about Go maps seen as Dafny maps: the multiset of their values, which
    is what a `for … range` over a map visits, in some order. */
module Maps {

  lemma EmptyWithoutMembers<T>(s: set<T>)
    requires forall x :: x !in s
    ensures s == {}
  {
  }

  /** A non-empty set has a member; loops that visit a map's keys in an
      unspecified order pick the next key with it. */
  lemma SomeMember<T>(s: set<T>) returns (x: T)
    requires s != {}
    ensures x in s
  {
    // `x :| x in s` needs `exists y :: y in s`, which `s != {}` does not
    // give the solver directly; the empty case contradicts `s != {}`.
    if !exists y :: y in s {
      EmptyWithoutMembers(s);
      assert false;
    }
    x :| x in s;
  }

  /** Some key of a non-empty map; which one is left open, like Go's iteration order. */
  ghost function AnyKey<K, V>(m: map<K, V>): (k: K)
    requires m != map[]
    ensures k in m
  {
    var k :| k in m; k
  }

  /** The values of m, each counted once per key that holds it. */
  ghost function Values<K, V>(m: map<K, V>): (vs: multiset<V>)
    ensures |vs| == |m|
    decreases |m|
  {
    if m == map[] then multiset{}
    else
      var k := AnyKey(m);
      assert |m.Keys - {k}| == |m.Keys| - 1;
      multiset{m[k]} + Values(m - {k})
  }

  /** Taking any one key out removes exactly its value from the multiset. */
  lemma {:induction false} ValuesRemove<K, V>(m: map<K, V>, k: K)
    requires k in m
    ensures Values(m) == multiset{m[k]} + Values(m - {k})
    decreases |m|
  {
    var j := AnyKey(m);
    if j != k {
      var mj, mk := m - {j}, m - {k};
      assert |mj.Keys| == |m.Keys| - 1 by { assert mj.Keys == m.Keys - {j}; }
      assert |mk.Keys| == |m.Keys| - 1 by { assert mk.Keys == m.Keys - {k}; }
      var rest := m - {j, k};
      assert mj - {k} == rest;
      assert mk - {j} == rest;
      ValuesRemove(mj, k);
      ValuesRemove(mk, j);
      calc {
        Values(m);
        multiset{m[j]} + Values(mj);
        multiset{m[j]} + (multiset{m[k]} + Values(rest));
        multiset{m[k]} + (multiset{m[j]} + Values(rest));
        multiset{m[k]} + Values(mk);
      }
    }
  }

  /** One step of a range loop that appends the value under key k and forgets k. */
  lemma VisitKey<K, V>(visited: seq<V>, unvisited: map<K, V>, k: K)
    requires k in unvisited
    ensures |unvisited - {k}| == |unvisited| - 1
    ensures multiset(visited + [unvisited[k]]) + Values(unvisited - {k}) == multiset(visited) + Values(unvisited)
  {
    assert (unvisited - {k}).Keys == unvisited.Keys - {k};
    ValuesRemove(unvisited, k);
    assert multiset(visited + [unvisited[k]]) == multiset(visited) + multiset{unvisited[k]};
  }

  /** A sequence holding the values of m holds each of them, and one element per key. */
  lemma ValuesInSeq<K, V>(s: seq<V>, m: map<K, V>)
    requires multiset(s) == Values(m)
    ensures |s| == |m|
    ensures forall k :: k in m ==> m[k] in s
  {
    assert |s| == |multiset(s)|;
    forall k | k in m
      ensures m[k] in s
    {
      ValuesRemove(m, k);
      assert m[k] in multiset(s);
    }
  }
}

=== FILE: scenarios.dfy ===
/** Clients of the store that use only the contracts of its operations. */
module Scenarios {
  import opened Wrappers
  import opened Database
  import Session
  import Chirpy
  import Strconv
  import Bcrypt

  /** Register an account, log in, trade the refresh token for a session,
      revoke it, and try to trade it again. */
  method LoginRenewRevoke() returns (login: Result<UserReturn, Error>, renewed: Result<Session.Claims, Error>,
                                     afterRevoke: Result<Session.Claims, Error>)
    ensures login.Ok? && login.value.id == 1 && login.value.refreshToken == "r1"
    ensures login.value.token == Some(Session.Claims("chirpy", "1", 1000, 1000 + 3600))
    ensures renewed == Ok(Session.Claims("chirpy", "1", 2000, 2000 + 3600))
    ensures afterRevoke == Err(InvalidRefreshToken)
  {
    var db := new DB();
    var created := db.CreateUser("a@x.com", "pw1", 7);
    assert db.users == map[1 := User(1, "a@x.com", Bcrypt.Hash("pw1", 7))];
    assert db.users[1].email == "a@x.com" && Bcrypt.Matches(db.users[1].password, "pw1");
    login := db.VerifyUser("a@x.com", "pw1", 0, 1000, "r1");
    assert db.refreshTokens == map[1 := RefreshToken("r1", 1000 + REFRESH_TOKEN_LIFETIME)];
    assert Strconv.Itoa(1) == "1";
    assert IsValidToken(db.refreshTokens, 1, "r1", 2000);
    renewed := db.GetNewTokenFromRefreshToken("r1", 2000);
    assert HasToken(db.refreshTokens, "r1");
    db.RemoveRefreshToken("r1");
    assert db.refreshTokens == map[];
    afterRevoke := db.GetNewTokenFromRefreshToken("r1", 3000);
  }

  /** Registering the same email twice fails the second time, whatever the password. */
  method DuplicateRegistration() returns (first: Result<UserReturn, Error>, second: Result<UserReturn, Error>)
    ensures first == Ok(UserReturn(1, "a@x.com", None, ""))
    ensures second == Err(UserExists)
  {
    var db := new DB();
    first := db.CreateUser("a@x.com", "pw1", 1);
    assert db.users[1].email == "a@x.com";
    second := db.CreateUser("a@x.com", "other", 2);
  }

  /** After a password change, login accepts the new password and refuses the old one. */
  method PasswordChange() returns (withOld: Result<UserReturn, Error>, withNew: Result<UserReturn, Error>)
    ensures withOld == Err(PasswordMismatch)
    ensures withNew.Ok? && withNew.value.id == 1
  {
    var db := new DB();
    var created := db.CreateUser("a@x.com", "pw1", 1);
    var updated := db.UpdateUser("1", "a@x.com", "pw2", 2);
    assert Strconv.Atoi("1") == Some(1) by {
      assert "1"[0] == '1' && Strconv.DigitsValue("1") == 1;
    }
    assert db.users == map[1 := User(1, "a@x.com", Bcrypt.Hash("pw2", 2))];
    assert db.users[1].email == "a@x.com";
    withOld := db.VerifyUser("a@x.com", "pw1", 0, 1000, "r1");
    assert Bcrypt.Matches(db.users[1].password, "pw2");
    withNew := db.VerifyUser("a@x.com", "pw2", 0, 1000, "r2");
  }

  /** On an empty store a 139-byte chirp passes the length check and gets id 1;
      a 140-byte one is rejected. */
  method FirstChirp(author: string) returns (accepted: bool, rejected: bool, chirp: Result<Chirp, Error>)
    requires Strconv.Atoi(author).Some?
    ensures accepted && rejected
    ensures chirp.Ok? && chirp.value.id == 1 && chirp.value.authorId == Strconv.Atoi(author).value
  {
    var short := seq(139, _ => 'a');
    var long := short + ['a'];
    accepted := !Chirpy.ChirpTooLong(short);
    rejected := Chirpy.ChirpTooLong(long);
    var db := new DB();
    chirp := db.CreateChirp(short, author);
  }
}

=== FILE: session.dfy ===
/** Session tokens (getSignedToken in database/database.go). A token is an HS256
    JWT; the model keeps its registered claims and leaves the signature out.
    Times are whole seconds. */
module Session {
  import opened Strconv
  import Wrappers

  const ISSUER: string := "chirpy"
  /** time.ParseDuration("1h"), in seconds. */
  const DEFAULT_TTL: int := 3600
  const NANOS_PER_SECOND: int := 1_000_000_000
  const TWO_TO_64: int := 0x1_0000_0000_0000_0000

  datatype Claims = Claims(issuer: string, subject: string, issuedAt: int, expiresAt: int)

  /** Lifetime of a session token in seconds: the requested one when it is
      non-zero and shorter than the one-hour default, the default otherwise. */
  function SessionTtl(expiresInSeconds: int): (d: int)
    ensures d <= DEFAULT_TTL
    ensures expiresInSeconds == 0 || expiresInSeconds >= DEFAULT_TTL ==> d == DEFAULT_TTL
    ensures expiresInSeconds != 0 && expiresInSeconds < DEFAULT_TTL ==> d == expiresInSeconds
  {
    if expiresInSeconds != 0 && expiresInSeconds < DEFAULT_TTL then expiresInSeconds else DEFAULT_TTL
  }

  /** The claims getSignedToken signs for user `id` at time `now`. */
  function SignedClaims(id: int, expiresInSeconds: int, now: int): (c: Claims)
    ensures c.issuer == ISSUER && c.issuedAt == now
    ensures c.issuedAt < c.expiresAt <= c.issuedAt + DEFAULT_TTL || expiresInSeconds < 0
    ensures InInt64(id) ==> Atoi(c.subject) == Wrappers.Some(id)
  {
    AtoiItoaWhenInRange(id);
    Claims(ISSUER, Itoa(id), now, now + SessionTtl(expiresInSeconds))
  }

  lemma AtoiItoaWhenInRange(id: int)
    ensures InInt64(id) ==> Atoi(Itoa(id)) == Wrappers.Some(id)
  {
    if InInt64(id) {
      AtoiItoa(id);
    }
  }

  /** Two's-complement wrap-around of Go's 64-bit integer arithmetic. */
  function Wrap64(x: int): (r: int)
    ensures InInt64(r)
    ensures (r - x) % TWO_TO_64 == 0
    ensures InInt64(x) ==> r == x
  {
    (x - MIN_INT64) % TWO_TO_64 + MIN_INT64
  }

  /** The duration getSignedToken computes, in nanoseconds, as written: the
      product `time.Second * time.Duration(expiresInSeconds)` is a 64-bit
      multiplication and wraps around. */
  function SessionTtlNanosAsWritten(expiresInSeconds: int): (d: int)
    requires InInt64(expiresInSeconds)
    ensures InInt64(d)
  {
    if DEFAULT_TTL > expiresInSeconds && expiresInSeconds != 0 then
      Wrap64(NANOS_PER_SECOND * expiresInSeconds)
    else
      DEFAULT_TTL * NANOS_PER_SECOND
  }

  /** Seconds between issue and expiry of the token as written: jwt.NewNumericDate
      truncates `now + d` to whole seconds. */
  function ExpiryOffsetAsWritten(expiresInSeconds: int): (offset: int)
    requires InInt64(expiresInSeconds)
  {
    SessionTtlNanosAsWritten(expiresInSeconds) / NANOS_PER_SECOND
  }

  /** Wherever the multiplication does not overflow, the code as written and
      SessionTtl agree. */
  lemma AsWrittenAgreesWithoutOverflow(expiresInSeconds: int)
    requires InInt64(expiresInSeconds)
    requires InInt64(NANOS_PER_SECOND * expiresInSeconds)
    ensures ExpiryOffsetAsWritten(expiresInSeconds) == SessionTtl(expiresInSeconds)
  {
  }

  /** A negative request just past the overflow bound yields a token that
      stays valid for about 292 years instead of at most one hour. */
  lemma NegativeRequestOutlivesDefault()
    ensures ExpiryOffsetAsWritten(-9_223_372_037) == 9_223_372_036
    ensures ExpiryOffsetAsWritten(-9_223_372_037) > DEFAULT_TTL
    ensures SessionTtl(-9_223_372_037) <= DEFAULT_TTL
  {
  }
}

=== FILE: strconv.dfy ===
/** The decimal conversions of Go's strconv package that the store depends on:
    `Atoi` parses a chirp's author id and the subject of a session token,
    `Itoa` writes a user id into that subject. Strings are byte strings. */
module Strconv {
  import opened Wrappers

  const MIN_INT64: int := -0x8000_0000_0000_0000
  const MAX_INT64: int := 0x7fff_ffff_ffff_ffff

  /** Go's `int` on a 64-bit platform. */
  predicate InInt64(x: int) {
    MIN_INT64 <= x <= MAX_INT64
  }

  predicate IsDigit(c: char) {
    '0' <= c <= '9'
  }

  predicate AllDigits(s: string) {
    forall i :: 0 <= i < |s| ==> IsDigit(s[i])
  }

  function DigitChar(d: nat): (c: char)
    requires d < 10
    ensures IsDigit(c)
  {
    ('0' as int + d) as char
  }

  /** The value of a run of decimal digits, most significant first. */
  function DigitsValue(s: string): (v: nat)
    requires AllDigits(s)
  {
    if |s| == 0 then 0
    else DigitsValue(s[..|s| - 1]) * 10 + (s[|s| - 1] as int - '0' as int)
  }

  /** strconv.Atoi: an optional '+' or '-', at least one decimal digit and nothing
      else, whose value fits in a 64-bit int; anything else is a syntax or range error. */
  function Atoi(s: string): (r: Option<int>)
    ensures r.Some? ==> InInt64(r.value)
    ensures r.Some? ==> |s| > 0 && (IsDigit(s[0]) || s[0] == '+' || s[0] == '-')
    ensures r.Some? ==>
              var d := if s[0] == '-' || s[0] == '+' then s[1..] else s;
              |d| > 0 && AllDigits(d) && r.value == (if s[0] == '-' then -(DigitsValue(d) as int) else DigitsValue(d))
    ensures r.Some? && s[0] == '-' ==> r.value <= 0
    ensures r.Some? && s[0] != '-' ==> r.value >= 0
  {
    if |s| == 0 then None
    else
      var digits := if s[0] == '-' || s[0] == '+' then s[1..] else s;
      if |digits| == 0 || !AllDigits(digits) then None
      else
        var magnitude: int := DigitsValue(digits);
        var v := if s[0] == '-' then -magnitude else magnitude;
        if InInt64(v) then Some(v) else None
  }

  /** The decimal digits of n without leading zeros. */
  function Digits(n: nat): (s: string)
    ensures |s| > 0 && AllDigits(s)
    decreases n
  {
    if n < 10 then [DigitChar(n)] else Digits(n / 10) + [DigitChar(n % 10)]
  }

  /** strconv.Itoa: a '-' for negative numbers, then the digits of the magnitude. */
  function Itoa(n: int): (s: string)
    ensures |s| > 0
    ensures n < 0 <==> s[0] == '-'
  {
    if n < 0 then "-" + Digits(-n) else Digits(n)
  }

  lemma {:induction false} DigitsValueOfDigits(n: nat)
    ensures DigitsValue(Digits(n)) == n
    decreases n
  {
    if n >= 10 {
      DigitsValueOfDigits(n / 10);
      var s := Digits(n);
      assert s[..|s| - 1] == Digits(n / 10);
    }
  }

  /** Parsing what Itoa printed gives the number back, for every 64-bit int. */
  lemma AtoiItoa(n: int)
    requires InInt64(n)
    ensures Atoi(Itoa(n)) == Some(n)
  {
    var s := Itoa(n);
    if n < 0 {
      DigitsValueOfDigits(-n);
      assert s[1..] == Digits(-n);
    } else {
      DigitsValueOfDigits(n);
      assert IsDigit(s[0]);
    }
  }
}

=== FILE: wrappers.dfy ===
/** Optional values and results with an error, as the store's operations return them. */
module Wrappers {

  datatype Option<+T> = None | Some(value: T)

  datatype Result<+T, +E> = Ok(value: T) | Err(error: E)
}
